=== FILE: README.md ===
# WSL RFS Manager — a Dafny model of the disk-image scan

WSL RFS Manager finds where each registered WSL distribution keeps its root
filesystem image, `ext4.vhdx`. Its core is the `WSLRFSManager` class in
`src/wsl_rfs_manager.py`. The class does three things:

- **Distribution lister** (`get_wsl_distributions`): turns the output of a
  registry query into `{name, path}` records.
- **Disk-image locator** (`find_vhdx_files`): searches three candidate roots
  for a distribution's base path with a depth-bounded `os.walk`.
- **Scan** (`scan_distributions`): keeps the distributions for which at least
  one image was found, in listing order.

This project models those three operations, and the Python and Windows
behaviour they rely on, as pure Dafny functions, and proves properties of
them.

Modules, one per file:

| file | module | what it models |
|---|---|---|
| `pyjson.dfy` | `PyJson` | Decoded JSON values, Python truthiness, `dict.get` with a default |
| `text.dfy` | `Text` | `str.strip() == ""` (the `str.isspace` set) and `str.replace(old, "")` |
| `wrappers.dfy` | `Wrappers` | `Option`, shared by the other modules |
| `paths.dfy` | `Paths` | `ntpath.join` of a directory and one relative name, `path.count(os.sep)`, `ntpath.expanduser` |
| `walk.dfy` | `Walk` | Top-down `os.walk` over an abstract directory tree, with the locator's `dirs.clear()` pruning |
| `distributions.dfy` | `Distributions` | `get_wsl_distributions` once the query has produced `(stdout, stderr)` |
| `locator.dfy` | `Locator` | `find_vhdx_files`: normalisation, candidate roots, existence check, the walks, partial results |
| `scanner.dfy` | `Scanner` | `scan_distributions`, and an end-to-end worked scan |

The world outside the program is passed in as parameters:

- The query's stripped standard output and error are strings.
- `json.loads` is a function `string -> Decoded`.
- The user's home directory is an `Option<string>`.
- The filesystem is a map from each existing path to the directory tree it
  resolves to.

A tree node is a listable directory, an unlistable entry (`os.walk` skips it
silently), or a `Fault`: any exception that escapes the walk at that point.
A `Fault` ends the search. The images gathered so far are returned, and the
remaining roots are not walked.

Three behaviours of the code are made explicit:

- **Duplicates are kept.** The base path is walked first. When its
  `LocalState` subdirectory holds the image, that walk reaches the image one
  level down. `LocalState` is then walked again as the second candidate root,
  so the same image is reported twice. `Scanner.UbuntuScenarioReportsImageTwice`
  proves this for a one-distribution scan.
  `Locator.FindVhdxFilesConcatenates` states the general rule: with no
  escaping exception, the result is the three roots' matches concatenated,
  with no de-duplication.
- **Normalisation is not idempotent.** `replace('\\\\?\\', '')` is a single
  left-to-right pass, so removing one occurrence can assemble a new one from
  the characters around it. `Locator.NormaliseNotIdempotent` exhibits such an
  input.
- **A non-object array element raises.** If the decoded array holds an element
  that is not an object, `dist.get` raises `AttributeError`. Neither the
  lister nor the scan catches it, so the model's outcome is `Raise`.
  A truthy `BasePath` that is not a string also makes `.replace` raise, but
  the locator catches that and returns the empty list.

## Model

| member | source | states |
|---|---|---|
| Distributions.ListDistributions | src/wsl_rfs_manager.py:38-72 | A non-empty error gives `[]`. Blank output gives `[]`. For any value `json.loads` returns, an exception escapes exactly when that value is an array with a non-object element. A decoded array gives one record per element, with the name defaulting to "Unknown" and the path to "". A decoded object gives exactly one such record. A malformed or scalar decode gives `[]`. |
| Distributions.Records | src/wsl_rfs_manager.py:54-61 | The comprehension over a decoded array raises `AttributeError` exactly when some element is not an object. Otherwise it yields one record per element, in order. Each record's name is the element's `DistributionName` if present, else "Unknown", and its path is `BasePath` if present, else "". |
| Distributions.RecordOf | src/wsl_rfs_manager.py:56-58 | No contract of its own. The `{name, path}` record with the "Unknown" and "" defaults. Specified element by element by `Distributions.Records`, and for a single object by `Distributions.ListDistributions`. |
| Text.IsBlank | src/wsl_rfs_manager.py:52 | No contract of its own. `output.strip()` is empty exactly when every character is Python white space. `Distributions.ListDistributions` states that blank output gives `[]`. |
| Text.RemoveAll | src/wsl_rfs_manager.py:82 | `str.replace(pat, "")` never lengthens the string. What it removes is specified by `Text.RemoveAllClean`, `Text.RemoveAllShrinks` and `Text.RemoveAllLeading`. |
| PyJson.Get | src/wsl_rfs_manager.py:57-58 | No contract of its own. `dict.get(key, default)`: the key's value if present, else the default. Specified through `Distributions.Records`, whose per-element clauses state the lookup with the "Unknown" and "" defaults, and `Distributions.ListDistributions`. |
| Text.RemoveAllClean | src/wsl_rfs_manager.py:82 | A base path in which `\\?\` does not occur is left unchanged by the replace. |
| Text.RemoveAllShrinks | src/wsl_rfs_manager.py:82 | The replace shortens the path exactly when `\\?\` occurs in it. |
| Text.RemoveAllLeading | src/wsl_rfs_manager.py:82 | A leading `\\?\` is removed, and the rest of the path is processed as if it stood alone. |
| Locator.NormaliseStripsPrefix | src/wsl_rfs_manager.py:82 | An extended-length path `\\?\P`, with no further prefix inside `P`, normalises to `P`. A path without the prefix is unchanged. |
| Locator.NormaliseNotIdempotent | src/wsl_rfs_manager.py:82 | One removal pass can produce a new `\\?\`: a concrete input normalises to the prefix itself, which a second normalisation changes again. |
| Paths.Join | src/wsl_rfs_manager.py:87 | `os.path.join(dir, name)` is `dir + name` or `dir + "\" + name`. An empty `dir` gives `name`. A bare drive such as `C:` gives the drive-relative `C:name`. No separator is added after a trailing separator. One is added after any final character other than a separator or a colon. |
| Paths.JoinSepCount | src/wsl_rfs_manager.py:97-99 | Joining adds at most one `os.sep` to the separators of its parts, which is what bounds the depth test. |
| Paths.SepCount | src/wsl_rfs_manager.py:99 | No contract of its own. `path.count(os.sep)`, counting `\` only, as a multiset count. Specified through `Paths.JoinSepCount`, `Walk.ListedDepth` and `Walk.ReportedIsShallow`. |
| Paths.ExpandUser | src/wsl_rfs_manager.py:88 | `os.path.expanduser` returns a path that does not start with `~` unchanged, and any path unchanged when no home directory is known. A `~` that ends at a separator or at the end of the path is replaced by the home directory. A `~name` path is returned unchanged. |
| Locator.UserWindowsApps | src/wsl_rfs_manager.py:88 | The fallback root is the home directory followed by `\AppData\Local\Microsoft\WindowsApps`. With no known home directory it is the unexpanded `~` pattern. Derived from `Paths.ExpandUser`'s contract. |
| Locator.CandidateRoots | src/wsl_rfs_manager.py:80-89 | There are exactly three roots. The first is the normalised base path. It is the base path itself when `\\?\` does not occur in it, `P` for an extended-length path `\\?\P` with no further prefix in `P`, and shorter than the base path exactly when the prefix occurs. The second is the first joined with `LocalState`: a separator is inserted whenever the first does not end in a separator or a colon. The third is the fallback root, the same for every distribution. |
| Locator.Normalise | src/wsl_rfs_manager.py:82 | No contract of its own. Specified by `Locator.NormaliseKeepsOrShortens`, `Locator.NormaliseStripsPrefix` and `Locator.NormaliseNotIdempotent`. |
| Locator.NormaliseKeepsOrShortens | src/wsl_rfs_manager.py:82 | A base path without `\\?\` is its own normal form. Normalising shortens exactly the base paths in which the prefix occurs. |
| Locator.NormaliseExtendedForm | src/wsl_rfs_manager.py:82 | A base path in the extended-length form `\\?\P`, with no further prefix in `P`, normalises to `P`. |
| Locator.Exists | src/wsl_rfs_manager.py:92 | No contract of its own. `os.path.exists` is false for the empty path and for paths holding NUL, and otherwise true exactly for the paths of the filesystem. It is used by `Locator.WalkRoot` and specified through `Locator.SearchRootsSound`. |
| Walk.Matches | src/wsl_rfs_manager.py:95-97 | One path is reported per listed file named exactly `ext4.vhdx`, as many as there are such names. Each is `join(root, "ext4.vhdx")`. |
| Walk.WalkDir | src/wsl_rfs_manager.py:94-100 | No contract of its own. Specified by `Walk.WalkDirSound`, `Walk.WalkDirComplete`, `Walk.WalkDirNoFault`, `Walk.WalkDirPartial`, `Walk.ListedDepth` and `Walk.DepthBoundaryExample`. |
| Walk.WalkEntries | src/wsl_rfs_manager.py:94-100 | No contract of its own. Specified by `Walk.WalkEntriesSound`, `Walk.WalkEntriesComplete`, `Walk.WalkEntriesNoFault` and `Walk.WalkEntriesPartial`. |
| Walk.WalkDirSound | src/wsl_rfs_manager.py:94-100 | Every path the walk reports is `ext4.vhdx` joined to a directory that the pruned, link-skipping walk lists. |
| Walk.WalkEntriesSound | src/wsl_rfs_manager.py:94-100 | Every path reported under a directory's subdirectories comes from one subdirectory that is not a link. |
| Walk.WalkDirNoFault | src/wsl_rfs_manager.py:94-100 | The walk ends in an escaping exception exactly when a directory it enters raises (`Walk.EnteredFaultFree` fails), so a fault behind a link or below the pruning boundary does not count. A tree with no raising non-link directory at any depth (`Walk.FaultFree`) never makes it raise. |
| Walk.WalkEntriesNoFault | src/wsl_rfs_manager.py:94-100 | The walk over a directory's subdirectories ends in an exception exactly when the walk of one of its non-link subdirectories does. Subdirectories that are all fault-free never make it raise. |
| Walk.FaultFreeEntered | src/wsl_rfs_manager.py:94-100 | A tree with no raising non-link directory at any depth has none where the walk enters, from any root and base. |
| Walk.WalkDirComplete | src/wsl_rfs_manager.py:94-100 | When the walk ends without an escaping exception, it reports `ext4.vhdx` in every directory it lists. |
| Walk.WalkEntriesComplete | src/wsl_rfs_manager.py:94-100 | When the walk over the subdirectories ends without an escaping exception, every match listed under any non-link subdirectory is reported. |
| Walk.ListedDepth | src/wsl_rfs_manager.py:99-100 | With separator-free names, every directory the walk lists from a root is at most 3 separators deeper than the root. |
| Walk.ReportedIsShallow | src/wsl_rfs_manager.py:99-100 | Every match reported from a search root lies in a directory at most 3 separators below that root. |
| Walk.WalkDirPartial | src/wsl_rfs_manager.py:94-106 | An escaping exception only cuts the walk short. Its results are a prefix of the exception-free walk's, and are equal to them when nothing escaped. |
| Walk.WalkEntriesPartial | src/wsl_rfs_manager.py:94-106 | The same prefix property holds for the walk over a directory's subdirectories. |
| Walk.DepthBoundaryExample | src/wsl_rfs_manager.py:94-100 | A root with `ext4.vhdx` two, three and four levels down. The copies two and three levels down are reported; the one at three levels is in the boundary directory, whose files are examined before its subdirectories are pruned. The copy four levels down is never reached. |
| Walk.PrunedFaultExample | src/wsl_rfs_manager.py:94-100 | The boundary directory holds `ext4.vhdx` and a subdirectory that would raise. The tree is not fault-free, yet the walk never enters that subdirectory: it ends without an exception and reports the boundary directory's copy. |
| Locator.WalkRoot | src/wsl_rfs_manager.py:92-100 | No contract of its own. A root that does not exist contributes nothing, and an existing one is walked with its own separator count as the base. Specified by `Locator.SearchRootsSound`, `Locator.SearchRootsComplete` and `Locator.RootNoFault`. |
| Locator.SearchRoots | src/wsl_rfs_manager.py:91-106 | No contract of its own. Specified by `Locator.SearchRootsAppend`, `Locator.SearchRootsSound`, `Locator.SearchRootsComplete` and `Locator.SearchRootsPartial`. |
| Locator.FindVhdxFiles | src/wsl_rfs_manager.py:74-106 | A falsy path finds nothing. A path that is not a string finds nothing, because the `.replace` exception is caught. |
| PyJson.Truthy | src/wsl_rfs_manager.py:80 | No contract of its own. Python truthiness of a decoded value. `Locator.FindVhdxFiles` states that a falsy path finds nothing. |
| Locator.SearchRootsAppend | src/wsl_rfs_manager.py:91-106 | Searching `a + b` gives `a`'s matches followed by `b`'s, with no de-duplication. Once a root of `a` raises, no root of `b` is walked. |
| Locator.SearchRootsSound | src/wsl_rfs_manager.py:91-97 | Every file the search reports is `ext4.vhdx` in a directory listed under some candidate root that exists. |
| Locator.SearchRootsComplete | src/wsl_rfs_manager.py:91-97 | When the search ends without an escaping exception, every such file under every existing root is reported. Faults in trees the search never enters do not matter. |
| Locator.RootNoFault | src/wsl_rfs_manager.py:92-100 | A root's walk raises exactly when the root exists and a directory the walk enters raises. A root whose tree is fault-free never raises. |
| Locator.SearchRootsNoFault | src/wsl_rfs_manager.py:91-106 | The search raises exactly when one of its roots' walks raises. It never raises when no tree in the filesystem holds a fault. |
| Locator.FindVhdxFilesSoundComplete | src/wsl_rfs_manager.py:74-106 | A file is reported only if it is `ext4.vhdx` in a directory listed under one of the three existing candidate roots. When no directory the walks from the existing candidate roots enter raises, which is exactly when the search ends without an escaping exception (`Locator.SearchRootsNoFault`, `Locator.RootNoFault`), this holds in both directions. |
| Locator.FindVhdxFilesConcatenates | src/wsl_rfs_manager.py:85-97 | When the search ends without an escaping exception, the result is root 1's, root 2's and root 3's matches concatenated in that order. A missing root contributes nothing, and duplicates are kept. |
| Locator.SearchRootsPartial | src/wsl_rfs_manager.py:91-106 | The search's results are a prefix of those it would gather with no exception, and are equal to them when nothing escaped. |
| Locator.FindVhdxFilesPartial | src/wsl_rfs_manager.py:102-106 | An exception during the walks returns what was gathered before it: a prefix of the exception-free result. |
| Locator.FindVhdxFilesShallow | src/wsl_rfs_manager.py:94-100 | With separator-free names, every reported file lies at most 3 separators below the candidate root it was found under. |
| Scanner.Collect | src/wsl_rfs_manager.py:113-120 | The loop yields at most one entry per distribution, and every entry has at least one file. |
| Scanner.EntryFor | src/wsl_rfs_manager.py:116-120 | No contract of its own. The `{distribution, path, vhdx_files}` record of one kept distribution. `Scanner.CollectSelectsInOrder` states that each entry is `EntryFor` of its distribution. |
| Scanner.CollectFollowsSelected | src/wsl_rfs_manager.py:113-120 | Entry `i` of the loop is the entry of the `i`-th distribution whose search found something. |
| Scanner.CollectSelectsInOrder | src/wsl_rfs_manager.py:113-120 | The entries correspond to strictly increasing listing positions. A distribution has an entry exactly when its search is non-empty, and that entry carries its name, its path and its files. |
| Scanner.ScanDistributions | src/wsl_rfs_manager.py:108-122 | The scan raises exactly when the lister raises. Otherwise it is the loop over the listed distributions with the locator. A non-empty query error gives `[]`. Every reported entry has at least one file. |
| Scanner.UbuntuScenarioReportsImageTwice | src/wsl_rfs_manager.py:108-122 | Setup: distribution `Ubuntu` at `C:\U`, whose only image is `C:\U\LocalState\ext4.vhdx`. The scan reports one entry, whose file list holds that image twice. |

## Left out

- `run_powershell_command` (src/wsl_rfs_manager.py:22-36): starting
  PowerShell, its 30-second timeout and its stripping of the streams are not
  modelled. Its stripped stdout and stderr are inputs. On a timeout it
  returns a non-empty error message, which falls under the non-empty-error
  case. On any other exception it returns `("", str(e))`. When `str(e)` is
  empty, as for an exception raised without arguments, the empty output
  falls under the blank-output case. Either way the lister returns `[]`.
- `json.loads` is a parameter, so its parsing is not modelled. A malformed
  document is `Malformed`, which the lister turns into `[]`. Exceptions `json.loads` raises
  other than `JSONDecodeError` are not caught by the source and are not
  modelled. Two examples are a `RecursionError` on deeply nested input and,
  from CPython 3.11 on, a plain `ValueError` for an integer literal longer
  than 4300 digits. Both escape the lister and the scan.
- JSON numbers are integers. A float `BasePath` is not a string, so the
  locator returns `[]` whatever its value.
- The `print` diagnostics at lines 71 and 105 are not modelled.
- The attributes `self.distributions` and `self.vhdx_locations` are not
  modelled. The scan returns exactly what it stores in them.
- The GUI class `WSLRFSGUI`, `main`, threading and `test_gui.py` are outside
  the core.
- The filesystem is a fixed snapshot. Changes during a walk are not modelled.
- Windows' case-insensitive path lookup is not modelled: `os.path.exists` is
  an exact-key lookup.
- `Paths.Join` models `ntpath.join` only for a second argument that is one
  relative component: `LocalState`, `ext4.vhdx` or a listed directory name.
  Those are the only ways the locator calls it.
- `Walk.Node`'s `Fault` stands for whichever `Exception` escapes the walk
  (the locator's `except Exception`). What raises it is not modelled.
  `BaseException`s that are not `Exception`s are not modelled.
- `Paths.ExpandUser` does not model the `~name` form for another user, which
  CPython guesses from the current user's profile directory. It returns such
  a path unchanged. The locator only ever expands `~\...`.
- `Text.RemoveAll`: its own contract states only that the result is no
  longer. What it removes is stated by `Text.RemoveAllClean`,
  `Text.RemoveAllShrinks` and `Text.RemoveAllLeading`.
- `Scanner.Collect`: its own contract is only bounds. Which entries it keeps,
  and in what order, is stated by `Scanner.CollectSelectsInOrder`.
- `Scanner.UbuntuScenarioReportsImageTwice` is stated for the one base path
  `C:\U`. The walk depends on the base path only through the separator
  counts of the roots and the directories below them.

=== FILE: distributions.dfy ===
/** The distribution lister: turning the registry query's (output, error)
    pair into `{name, path}` records. Launching the query is not modelled;
    its stripped standard output and standard error are inputs, and
    `json.loads` is the parameter `loads`. */
module Distributions {
  import opened PyJson
  import opened Text

  /** The one exception that escapes the lister. */
  datatype Exception = AttributeError

  /** A Python call's outcome: a value, or an exception propagating to the caller. */
  datatype Outcome<+T> = Done(value: T) | Raise(error: Exception)

  /** One registered distribution. The values are whatever the registry
      entry decoded to; `dict.get` does not check their types. */
  datatype Distribution = Distribution(name: Json, path: Json)

  const NameKey := "DistributionName"
  const PathKey := "BasePath"
  const UnknownName := JString("Unknown")
  const NoPath := JString("")

  /** The record for one decoded registry object, with missing keys defaulted. */
  function RecordOf(fields: map<string, Json>): Distribution {
    Distribution(Get(fields, NameKey, UnknownName), Get(fields, PathKey, NoPath))
  }

  /** The record list for a decoded array, built element by element; the first
      element that is not an object makes `dist.get` raise AttributeError,
      which nothing in the lister catches. */
  function Records(items: seq<Json>): (r: Outcome<seq<Distribution>>)
    ensures r.Raise? <==> exists i :: 0 <= i < |items| && !items[i].JObject?
    ensures r.Raise? ==> r.error == AttributeError
    ensures r.Done? ==> |r.value| == |items|
    ensures r.Done? ==> forall i :: 0 <= i < |items| ==>
      && r.value[i].name == (if NameKey in items[i].fields then items[i].fields[NameKey] else JString("Unknown"))
      && r.value[i].path == (if PathKey in items[i].fields then items[i].fields[PathKey] else JString(""))
    decreases items
  {
    if items == [] then Done([])
    else if !items[0].JObject? then Raise(AttributeError)
    else
      match Records(items[1..])
      case Raise(e) => Raise(e)
      case Done(rest) => Done([RecordOf(items[0].fields)] + rest)
  }

  /** `get_wsl_distributions` after the query has run. */
  function ListDistributions(output: string, error: string, loads: string -> Decoded): (r: Outcome<seq<Distribution>>)
    ensures error != "" ==> r == Done([])
    ensures IsBlank(output) ==> r == Done([])
    ensures r.Raise? <==>
      && error == "" && !IsBlank(output)
      && loads(output).Parsed? && loads(output).value.JArray?
      && exists i :: 0 <= i < |loads(output).value.items| && !loads(output).value.items[i].JObject?
    ensures error == "" && !IsBlank(output) && loads(output).Parsed? && loads(output).value.JArray? && r.Done? ==>
      && |r.value| == |loads(output).value.items|
      && forall i :: 0 <= i < |r.value| ==>
           r.value[i] == Distribution(Get(loads(output).value.items[i].fields, NameKey, UnknownName),
                                      Get(loads(output).value.items[i].fields, PathKey, NoPath))
    ensures error == "" && !IsBlank(output) && loads(output).Parsed? && loads(output).value.JObject? ==>
      r == Done([Distribution(Get(loads(output).value.fields, NameKey, UnknownName),
                              Get(loads(output).value.fields, PathKey, NoPath))])
    ensures error == "" && !IsBlank(output) && !(loads(output).Parsed? && (loads(output).value.JArray? || loads(output).value.JObject?)) ==>
      r == Done([])
  {
    if error != "" then Done([])
    else if IsBlank(output) then Done([])
    else
      match loads(output)
      case Malformed => Done([])
      case Parsed(JArray(items)) => Records(items)
      case Parsed(JObject(fields)) => Done([RecordOf(fields)])
      case Parsed(_) => Done([])
  }
}

=== FILE: locator.dfy ===
/** The disk-image locator, `find_vhdx_files`: normalise the distribution's
    base path, build three candidate roots, and walk each existing one for
    `ext4.vhdx`. The filesystem is a map from the paths that exist to what
    they resolve to; the user's home directory is a parameter. */
module Locator {
  import opened Wrappers
  import opened PyJson
  import opened Text
  import opened Paths
  import opened Walk

  /** Paths that exist, and the directory tree each resolves to. */
  type FileSystem = map<string, Node>

  /** The extended-length prefix `\\?\`, removed wherever it occurs. */
  const ExtendedPrefix := "\\\\?\\"

  const LocalState := "LocalState"

  /** The fallback root below the home directory. */
  const WindowsAppsSuffix := "\\" + "AppData\\Local\\Microsoft\\WindowsApps"

  /** The fallback root as written, before `~` is expanded. */
  const WindowsAppsPattern := "~" + WindowsAppsSuffix

  /** `os.path.exists`: the empty path and paths holding NUL never exist. */
  predicate Exists(fs: FileSystem, p: string) {
    p != "" && '\0' !in p && p in fs
  }

  /** The base path with every occurrence of the extended-length prefix removed. */
  function Normalise(basePath: string): string {
    RemoveAll(basePath, ExtendedPrefix)
  }

  /** A base path without the prefix is its own normal form, and normalising
      shortens exactly the paths in which the prefix occurs. */
  lemma NormaliseKeepsOrShortens(basePath: string)
    ensures !Occurs(basePath, ExtendedPrefix) ==> Normalise(basePath) == basePath
    ensures |Normalise(basePath)| < |basePath| <==> Occurs(basePath, ExtendedPrefix)
  {
    if !Occurs(basePath, ExtendedPrefix) {
      RemoveAllClean(basePath, ExtendedPrefix);
    }
    RemoveAllShrinks(basePath, ExtendedPrefix);
  }

  /** A base path in the extended-length form `\\?\P`, with no further prefix
      in `P`, normalises to `P`. */
  lemma NormaliseExtendedForm(basePath: string)
    ensures |basePath| >= |ExtendedPrefix| && basePath[..|ExtendedPrefix|] == ExtendedPrefix
            && !Occurs(basePath[|ExtendedPrefix|..], ExtendedPrefix) ==>
      Normalise(basePath) == basePath[|ExtendedPrefix|..]
  {
    if |basePath| >= |ExtendedPrefix| && basePath[..|ExtendedPrefix|] == ExtendedPrefix
       && !Occurs(basePath[|ExtendedPrefix|..], ExtendedPrefix) {
      NormaliseStripsPrefix(basePath[|ExtendedPrefix|..]);
      assert basePath == ExtendedPrefix + basePath[|ExtendedPrefix|..];
    }
  }

  /** The fallback root, `expanduser` of the pattern: the home directory
      followed by the suffix, or the unexpanded pattern when no home
      directory is known. */
  function UserWindowsApps(home: Option<string>): (p: string)
    ensures home.None? ==> p == WindowsAppsPattern
    ensures home.Some? ==> p == home.value + WindowsAppsSuffix
  {
    assert WindowsAppsPattern[0] == '~' && WindowsAppsPattern[1] == '\\';
    assert WindowsAppsPattern[1..] == WindowsAppsSuffix;
    ExpandUser(WindowsAppsPattern, home)
  }

  /** The candidate roots, in search order: the normalised base path, its
      `LocalState` subdirectory, and the fallback root. */
  function CandidateRoots(basePath: string, home: Option<string>): (roots: seq<string>)
    ensures |roots| == 3
    ensures roots[0] == Normalise(basePath)
    ensures !Occurs(basePath, ExtendedPrefix) ==> roots[0] == basePath
    ensures |basePath| >= |ExtendedPrefix| && basePath[..|ExtendedPrefix|] == ExtendedPrefix
            && !Occurs(basePath[|ExtendedPrefix|..], ExtendedPrefix) ==>
      roots[0] == basePath[|ExtendedPrefix|..]
    ensures |roots[0]| < |basePath| <==> Occurs(basePath, ExtendedPrefix)
    ensures roots[1] == roots[0] + LocalState || roots[1] == roots[0] + [Sep] + LocalState
    ensures roots[0] != [] && !IsSep(roots[0][|roots[0]| - 1]) && roots[0][|roots[0]| - 1] != ':' ==>
      roots[1] == roots[0] + [Sep] + LocalState
    ensures roots[2] == UserWindowsApps(home)
  {
    NormaliseKeepsOrShortens(basePath);
    NormaliseExtendedForm(basePath);
    var normalised := Normalise(basePath);
    [normalised, Join(normalised, LocalState), UserWindowsApps(home)]
  }

  /** Walk one candidate root; a root that does not exist contributes nothing. */
  function WalkRoot(fs: FileSystem, root: string): Walked {
    if Exists(fs, root) then WalkDir(root, fs[root], SepCount(root)) else Walked([], false)
  }

  /** Walk the roots in order into one list, stopping at the first escaping exception. */
  function SearchRoots(fs: FileSystem, roots: seq<string>): Walked
    decreases roots
  {
    if roots == [] then Walked([], false)
    else
      var first := WalkRoot(fs, roots[0]);
      if first.faulted then first
      else
        var rest := SearchRoots(fs, roots[1..]);
        Walked(first.found + rest.found, rest.faulted)
  }

  /** `find_vhdx_files`. A falsy path finds nothing; a truthy path that is not
      a string makes `.replace` raise, which the locator catches, returning
      the empty list gathered so far; an exception during the walks returns
      what was gathered before it. */
  function FindVhdxFiles(path: Json, home: Option<string>, fs: FileSystem): (files: seq<string>)
    ensures !Truthy(path) ==> files == []
    ensures !path.JString? ==> files == []
  {
    if path.JString? && path.s != "" then SearchRoots(fs, CandidateRoots(path.s, home)).found
    else []
  }

  /** The extended-length form `\\?\<path>` normalises to `<path>`, and a path
      without the prefix is left alone. */
  lemma NormaliseStripsPrefix(p: string)
    requires !Occurs(p, ExtendedPrefix)
    ensures Normalise(ExtendedPrefix + p) == p
    ensures Normalise(p) == p
  {
    RemoveAllLeading(ExtendedPrefix, p);
    RemoveAllClean(p, ExtendedPrefix);
  }

  /** Removal is one left-to-right pass, so it can assemble a new copy of the
      prefix out of the pieces around a removed one: normalising is not idempotent. */
  lemma NormaliseNotIdempotent()
    ensures Normalise("\\\\" + ExtendedPrefix + "?\\") == ExtendedPrefix
    ensures Normalise(ExtendedPrefix) != ExtendedPrefix
  {
    var s := "\\\\" + ExtendedPrefix + "?\\";
    assert s[..4][2] != ExtendedPrefix[2] && s[1..][..4][2] != ExtendedPrefix[2];
    assert s[1..][1..][..4] == ExtendedPrefix;
    assert s[1..][1..][4..] == "?\\";
    calc {
      Normalise(s);
      [s[0]] + RemoveAll(s[1..], ExtendedPrefix);
      [s[0]] + [s[1]] + RemoveAll(s[1..][1..], ExtendedPrefix);
      [s[0]] + [s[1]] + RemoveAll("?\\", ExtendedPrefix);
      ExtendedPrefix;
    }
    RemoveAllLeading(ExtendedPrefix, "");
    assert ExtendedPrefix + "" == ExtendedPrefix;
  }

  /** Searching `a + b`: once a root of `a` has raised, the roots of `b` are
      never walked; otherwise their matches follow those of `a`, with no
      de-duplication. */
  lemma {:induction false} SearchRootsAppend(fs: FileSystem, a: seq<string>, b: seq<string>)
    ensures SearchRoots(fs, a).faulted ==> SearchRoots(fs, a + b) == SearchRoots(fs, a)
    ensures !SearchRoots(fs, a).faulted ==>
      SearchRoots(fs, a + b) == Walked(SearchRoots(fs, a).found + SearchRoots(fs, b).found, SearchRoots(fs, b).faulted)
    decreases a
  {
    if a != [] {
      assert (a + b)[0] == a[0];
      assert (a + b)[1..] == a[1..] + b;
      SearchRootsAppend(fs, a[1..], b);
    } else {
      assert a + b == b;
    }
  }

  /** Every file the search of `roots` reports is `ext4.vhdx` inside a directory
      the walk lists under one of the existing roots. */
  lemma {:induction false} SearchRootsSound(fs: FileSystem, roots: seq<string>)
    ensures forall f :: f in SearchRoots(fs, roots).found ==>
      exists k :: 0 <= k < |roots| && Exists(fs, roots[k]) && Reported(roots[k], fs[roots[k]], SepCount(roots[k]), f)
    decreases roots
  {
    if roots != [] {
      var r := roots[0];
      if Exists(fs, r) {
        WalkDirSound(r, fs[r], SepCount(r));
      }
      SearchRootsSound(fs, roots[1..]);
      forall f | f in SearchRoots(fs, roots).found
        ensures exists k :: 0 <= k < |roots| && Exists(fs, roots[k]) && Reported(roots[k], fs[roots[k]], SepCount(roots[k]), f)
      {
        if f in WalkRoot(fs, r).found {
          assert Exists(fs, roots[0]) && Reported(roots[0], fs[roots[0]], SepCount(roots[0]), f);
        } else {
          var rest := roots[1..];
          assert f in SearchRoots(fs, rest).found;
          var k :| 0 <= k < |rest| && Exists(fs, rest[k]) && Reported(rest[k], fs[rest[k]], SepCount(rest[k]), f);
          assert roots[k + 1] == rest[k];
        }
      }
    }
  }

  /** When no exception escapes the search, it reports every match under
      every existing root. */
  lemma {:induction false} SearchRootsComplete(fs: FileSystem, roots: seq<string>, k: int, f: string)
    requires !SearchRoots(fs, roots).faulted
    requires 0 <= k < |roots| && Exists(fs, roots[k]) && Reported(roots[k], fs[roots[k]], SepCount(roots[k]), f)
    ensures f in SearchRoots(fs, roots).found
    decreases roots
  {
    var r := roots[0];
    var first := WalkRoot(fs, r);
    assert !first.faulted;
    var rest := SearchRoots(fs, roots[1..]);
    assert SearchRoots(fs, roots).found == first.found + rest.found;
    if k == 0 {
      var q, qn :| Listed(r, fs[r], SepCount(r), q, qn) && qn.Dir? && Target in qn.files && f == Join(q, Target);
      WalkDirComplete(r, fs[r], SepCount(r), q, qn);
      assert f in first.found;
    } else {
      SearchRootsComplete(fs, roots[1..], k - 1, f);
      assert f in rest.found;
    }
  }

  /** Every file the locator reports is `ext4.vhdx` inside a directory listed
      under one of the three candidate roots that exists; when no directory
      the walks enter raises, so that no exception escapes the search, every
      such file is reported. */
  lemma FindVhdxFilesSoundComplete(s: string, home: Option<string>, fs: FileSystem, roots: seq<string>, f: string)
    requires s != "" && roots == CandidateRoots(s, home)
    ensures f in FindVhdxFiles(JString(s), home, fs) ==>
      exists k :: 0 <= k < 3 && Exists(fs, roots[k]) && Reported(roots[k], fs[roots[k]], SepCount(roots[k]), f)
    ensures (forall k :: 0 <= k < 3 && Exists(fs, roots[k]) ==> EnteredFaultFree(roots[k], fs[roots[k]], SepCount(roots[k]))) ==>
      (f in FindVhdxFiles(JString(s), home, fs) <==>
       exists k :: 0 <= k < 3 && Exists(fs, roots[k]) && Reported(roots[k], fs[roots[k]], SepCount(roots[k]), f))
  {
    SearchRootsSound(fs, roots);
    if forall k :: 0 <= k < 3 && Exists(fs, roots[k]) ==> EnteredFaultFree(roots[k], fs[roots[k]], SepCount(roots[k])) {
      forall k | 0 <= k < 3
        ensures !WalkRoot(fs, roots[k]).faulted
      {
        RootNoFault(fs, roots[k]);
      }
      SearchRootsNoFault(fs, roots);
      if k :| 0 <= k < 3 && Exists(fs, roots[k]) && Reported(roots[k], fs[roots[k]], SepCount(roots[k]), f) {
        SearchRootsComplete(fs, roots, k, f);
      }
    }
  }

  /** When no exception escapes the search, the result is the three roots' matches
      concatenated in root order, a missing root contributing nothing and a
      file reachable from two roots appearing twice. */
  lemma FindVhdxFilesConcatenates(s: string, home: Option<string>, fs: FileSystem, roots: seq<string>)
    requires s != "" && roots == CandidateRoots(s, home)
    requires !SearchRoots(fs, roots).faulted
    ensures FindVhdxFiles(JString(s), home, fs)
         == WalkRoot(fs, roots[0]).found + WalkRoot(fs, roots[1]).found + WalkRoot(fs, roots[2]).found
  {
    assert FindVhdxFiles(JString(s), home, fs) == SearchRoots(fs, roots).found;
    assert roots == [roots[0], roots[1], roots[2]];
    SearchThree(fs, roots[0], roots[1], roots[2]);
  }

  /** Three roots whose search raises nothing are searched one after the other. */
  lemma SearchThree(fs: FileSystem, a: string, b: string, c: string)
    requires !SearchRoots(fs, [a, b, c]).faulted
    ensures SearchRoots(fs, [a, b, c]).found == WalkRoot(fs, a).found + WalkRoot(fs, b).found + WalkRoot(fs, c).found
  {
    assert [a, b, c][1..] == [b, c];
    assert [b, c][1..] == [c];
    assert [c][1..] == [];
    assert SearchRoots(fs, [c]).found == WalkRoot(fs, c).found;
    assert SearchRoots(fs, [b, c]).found == WalkRoot(fs, b).found + WalkRoot(fs, c).found;
  }

  /** A root's walk raises exactly when the root exists and a directory the
      walk enters raises; a root whose tree is fault-free never does. */
  lemma RootNoFault(fs: FileSystem, root: string)
    ensures !WalkRoot(fs, root).faulted <==>
      !Exists(fs, root) || EnteredFaultFree(root, fs[root], SepCount(root))
    ensures Exists(fs, root) && FaultFree(fs[root]) ==> !WalkRoot(fs, root).faulted
  {
    if Exists(fs, root) {
      WalkDirNoFault(root, fs[root], SepCount(root));
    }
  }

  /** The search raises exactly when one of its roots' walks does; in
      particular it never does when no tree in the filesystem holds a fault. */
  lemma {:induction false} SearchRootsNoFault(fs: FileSystem, roots: seq<string>)
    ensures !SearchRoots(fs, roots).faulted <==> forall k :: 0 <= k < |roots| ==> !WalkRoot(fs, roots[k]).faulted
    ensures (forall p :: p in fs ==> FaultFree(fs[p])) ==> !SearchRoots(fs, roots).faulted
    decreases roots
  {
    if roots != [] {
      RootNoFault(fs, roots[0]);
      SearchRootsNoFault(fs, roots[1..]);
      assert forall k :: 0 <= k < |roots[1..]| ==> roots[1..][k] == roots[k + 1];
    }
  }

  /** The filesystem with every faulting directory made silently unlistable. */
  function HealAll(fs: FileSystem): (h: FileSystem)
    ensures h.Keys == fs.Keys
    ensures forall p :: p in h ==> FaultFree(h[p])
  {
    map p | p in fs :: Heal(fs[p])
  }

  /** The search of `roots` gathers a prefix of what it gathers when no
      directory raises, and the same when nothing escaped. */
  lemma {:induction false} SearchRootsPartial(fs: FileSystem, roots: seq<string>)
    ensures SearchRoots(fs, roots).found <= SearchRoots(HealAll(fs), roots).found
    ensures !SearchRoots(fs, roots).faulted ==> SearchRoots(fs, roots) == SearchRoots(HealAll(fs), roots)
    decreases roots
  {
    if roots != [] {
      var r := roots[0];
      var h := HealAll(fs);
      if Exists(fs, r) {
        WalkDirPartial(r, fs[r], SepCount(r));
        WalkDirNoFault(r, h[r], SepCount(r));
      }
      assert !WalkRoot(h, r).faulted;
      SearchRootsPartial(fs, roots[1..]);
    }
  }

  /** An exception during the walks leaves the locator with the matches
      gathered before it: a prefix of the fault-free result, which it equals
      when nothing raised. */
  lemma FindVhdxFilesPartial(path: Json, home: Option<string>, fs: FileSystem)
    ensures FindVhdxFiles(path, home, fs) <= FindVhdxFiles(path, home, HealAll(fs))
    ensures path.JString? && path.s != "" && !SearchRoots(fs, CandidateRoots(path.s, home)).faulted ==>
      FindVhdxFiles(path, home, fs) == FindVhdxFiles(path, home, HealAll(fs))
  {
    if path.JString? && path.s != "" {
      SearchRootsPartial(fs, CandidateRoots(path.s, home));
    }
  }

  /** With plain directory names, every reported file lies in a directory at
      most `MaxDepth` separators below the candidate root it was found under:
      nothing deeper than the pruning boundary is ever reported. */
  lemma FindVhdxFilesShallow(s: string, home: Option<string>, fs: FileSystem, roots: seq<string>, f: string)
    requires s != "" && roots == CandidateRoots(s, home)
    requires forall p :: p in fs ==> PlainNames(fs[p])
    ensures f in FindVhdxFiles(JString(s), home, fs) ==>
      exists k :: 0 <= k < 3 && Exists(fs, roots[k]) && ShallowReport(roots[k], fs[roots[k]], f)
  {
    FindVhdxFilesSoundComplete(s, home, fs, roots, f);
    if f in FindVhdxFiles(JString(s), home, fs) {
      var k :| 0 <= k < 3 && Exists(fs, roots[k]) && Reported(roots[k], fs[roots[k]], SepCount(roots[k]), f);
      ReportedIsShallow(roots[k], fs[roots[k]], f);
    }
  }
}

=== FILE: paths.dfy ===
/** Windows path handling as the locator uses it: `os.path.join` of a
    directory and one relative name (CPython's ntpath rules), the separator
    count `path.count(os.sep)` that measures walk depth, and
    `os.path.expanduser`. */
module Paths {
  import opened Wrappers

  /** `os.sep` on Windows. */
  const Sep: char := '\\'

  /** The separators ntpath accepts: `os.sep` and `os.altsep`. */
  predicate IsSep(c: char) {
    c == '\\' || c == '/'
  }

  /** `path.count(os.sep)`. The alternative separator `/` is not counted. */
  function SepCount(path: string): nat {
    multiset(path)[Sep]
  }

  /** Index of the first separator at or after `start`, or -1 (`str.find`). */
  function IndexOfSep(p: string, start: nat): (i: int)
    ensures i == -1 || (start <= i < |p| && IsSep(p[i]))
    ensures i == -1 ==> forall k :: start <= k < |p| ==> !IsSep(p[k])
    ensures i != -1 ==> forall k :: start <= k < i ==> !IsSep(p[k])
    decreases |p| - start
  {
    if start >= |p| then -1
    else if IsSep(p[start]) then start
    else IndexOfSep(p, start + 1)
  }

  /** ASCII upper-casing, enough to compare against the `UNC` marker. */
  function Upper(c: char): char {
    if 'a' <= c <= 'z' then (c as int - 32) as char else c
  }

  /** `p` begins with the device UNC marker `\\?\UNC\`, compared case-insensitively. */
  predicate HasUncPrefix(p: string) {
    && |p| >= 8
    && IsSep(p[0]) && IsSep(p[1]) && p[2] == '?' && IsSep(p[3])
    && Upper(p[4]) == 'U' && Upper(p[5]) == 'N' && Upper(p[6]) == 'C'
    && IsSep(p[7])
  }

  /** The whole of `p` is a drive in ntpath's sense: `splitroot(p)` leaves no
      root and no path. That is a drive letter alone (`C:`) or a UNC or device
      drive with at most one separator after its leading pair (`\\server\share`). */
  predicate WholeDrive(p: string) {
    if |p| >= 2 && IsSep(p[0]) && IsSep(p[1]) then
      var start := if HasUncPrefix(p) then 8 else 2;
      var i := IndexOfSep(p, start);
      i == -1 || IndexOfSep(p, i + 1) == -1
    else if |p| >= 1 && IsSep(p[0]) then false
    else |p| == 2 && p[1] == ':'
  }

  /** `os.path.join(dir, name)` on Windows for a `name` that is one relative
      component (no drive, no leading separator): a separator is inserted
      unless `dir` is empty, already ends in a separator, or is a bare drive
      ending in a colon (`C:` joins to `C:name`). */
  function Join(dir: string, name: string): (p: string)
    ensures p == dir + name || p == dir + [Sep] + name
    ensures dir == "" ==> p == name
    ensures |dir| == 2 && dir[1] == ':' && !IsSep(dir[0]) ==> p == dir + name
    ensures dir != "" && IsSep(dir[|dir| - 1]) ==> p == dir + name
    ensures dir != "" && !IsSep(dir[|dir| - 1]) && dir[|dir| - 1] != ':' ==> p == dir + [Sep] + name
  {
    if dir == "" then name
    else if IsSep(dir[|dir| - 1]) then dir + name
    else if dir[|dir| - 1] == ':' && WholeDrive(dir) then dir + name
    else dir + [Sep] + name
  }

  /** Joining adds at most one separator to those of its parts. */
  lemma JoinSepCount(dir: string, name: string)
    ensures SepCount(dir) + SepCount(name) <= SepCount(Join(dir, name)) <= SepCount(dir) + SepCount(name) + 1
  {
  }

  /** `os.path.expanduser` on Windows. `home` is the profile directory the
      environment names (`USERPROFILE`, else `HOMEDRIVE` joined with
      `HOMEPATH`), or `None` when it names none. A leading `~` that ends at a
      separator or at the end of the path becomes `home`; a path that does not
      start with `~`, or any path when `home` is unknown, is returned as is.
      The `~name` form for a named user is returned as is. */
  function ExpandUser(path: string, home: Option<string>): (r: string)
    ensures (path == [] || path[0] != '~') ==> r == path
    ensures home.None? ==> r == path
    ensures path != [] && path[0] == '~' && (|path| == 1 || IsSep(path[1])) && home.Some? ==>
      r == home.value + path[1..]
    ensures |path| >= 2 && path[0] == '~' && !IsSep(path[1]) ==> r == path
  {
    if path == [] || path[0] != '~' then path
    else
      var i := IndexOfSep(path, 1);
      var end := if i == -1 then |path| else i;
      match home
      case None => path
      case Some(h) => if end != 1 then path else h + path[end..]
  }
}

=== FILE: pyjson.dfy ===
/** Decoded JSON values, in the shape Python's json module hands them to the
    distribution lister, and the two Python operations the lister applies to
    them: truthiness and `dict.get` with a default. */
module PyJson {

  /** A decoded JSON value. Numbers are kept as integers: only their
      truthiness ever matters to the manager. */
  datatype Json =
    | JNull
    | JBool(b: bool)
    | JNumber(n: int)
    | JString(s: string)
    | JArray(items: seq<Json>)
    | JObject(fields: map<string, Json>)

  /** What decoding the command's output produced: a value, or a decode
      error (json.JSONDecodeError). The decoder itself is not modelled. */
  datatype Decoded = Parsed(value: Json) | Malformed

  /** Python truthiness of a decoded value (`if value:`). */
  predicate Truthy(v: Json) {
    match v
    case JNull => false
    case JBool(b) => b
    case JNumber(n) => n != 0
    case JString(s) => s != ""
    case JArray(items) => items != []
    case JObject(fields) => fields != map[]
  }

  /** `fields.get(key, default)` on a decoded object. */
  function Get(fields: map<string, Json>, key: string, default: Json): Json {
    if key in fields then fields[key] else default
  }
}

=== FILE: scanner.dfy ===
/** The scan, `scan_distributions`: list the distributions, search each one's
    base path, and keep those with at least one disk image, in listing order.
    The loop is stated for any search function `find`; the scan itself runs
    it with the locator. */
module Scanner {
  import opened Wrappers
  import opened PyJson
  import opened Paths
  import opened Walk
  import opened Distributions
  import opened Locator

  /** One reported distribution: its name and base path as listed, and the
      disk images found for it. */
  datatype ScanEntry = ScanEntry(distribution: Json, path: Json, vhdxFiles: seq<string>)

  /** The entry the scan would report for `d`. */
  function EntryFor(d: Distribution, find: Json -> seq<string>): ScanEntry {
    ScanEntry(d.name, d.path, find(d.path))
  }

  /** The loop over the listed distributions: at most one entry per
      distribution, and every entry has at least one file. */
  function Collect(dists: seq<Distribution>, find: Json -> seq<string>): (r: seq<ScanEntry>)
    ensures |r| <= |dists|
    ensures forall e :: e in r ==> e.vhdxFiles != []
    decreases dists
  {
    if dists == [] then []
    else
      var e := EntryFor(dists[0], find);
      var rest := Collect(dists[1..], find);
      if e.vhdxFiles != [] then [e] + rest else rest
  }

  /** Every index moved up by one. */
  function Shift(idx: seq<int>): (r: seq<int>)
    ensures |r| == |idx|
    ensures forall i :: 0 <= i < |idx| ==> r[i] == idx[i] + 1
  {
    if idx == [] then [] else [idx[0] + 1] + Shift(idx[1..])
  }

  /** The positions holding `true`, in increasing order. */
  function Selected(flags: seq<bool>): seq<int>
    decreases flags
  {
    if flags == [] then []
    else (if flags[0] then [0] else []) + Shift(Selected(flags[1..]))
  }

  /** For each distribution, whether its search finds something. */
  function Kept(dists: seq<Distribution>, find: Json -> seq<string>): (flags: seq<bool>)
    ensures |flags| == |dists|
    ensures forall i :: 0 <= i < |dists| ==> (flags[i] <==> find(dists[i].path) != [])
  {
    seq(|dists|, i requires 0 <= i < |dists| => find(dists[i].path) != [])
  }

  /** Indices in `[0, n)`, strictly increasing. */
  predicate IncreasingBelow(idx: seq<int>, n: int) {
    && (forall i :: 0 <= i < |idx| ==> 0 <= idx[i] < n)
    && (forall i, j :: 0 <= i < j < |idx| ==> idx[i] < idx[j])
  }

  /** Shifting keeps the order and moves the range up by one. */
  lemma ShiftIncreasing(idx: seq<int>, n: int)
    requires IncreasingBelow(idx, n)
    ensures IncreasingBelow(Shift(idx), n + 1)
    ensures forall i :: 0 <= i < |idx| ==> Shift(idx)[i] >= 1
  {
  }

  /** `k` is among the shifted indices exactly when `k - 1` is among the originals. */
  lemma ShiftMembers(idx: seq<int>, k: int)
    ensures k in Shift(idx) <==> k - 1 in idx
  {
    var sh := Shift(idx);
    if k in sh {
      var i :| 0 <= i < |sh| && sh[i] == k;
      assert idx[i] == k - 1;
    }
    if k - 1 in idx {
      var i :| 0 <= i < |idx| && idx[i] == k - 1;
      assert sh[i] == k;
    }
  }

  /** Putting index 0 in front of indices that are all positive keeps them increasing. */
  lemma LeadZero(idx: seq<int>, n: int)
    requires n > 0 && IncreasingBelow(idx, n)
    requires forall i :: 0 <= i < |idx| ==> idx[i] >= 1
    ensures IncreasingBelow([0] + idx, n)
  {
    var r := [0] + idx;
    forall i, j | 0 <= i < j < |r|
      ensures r[i] < r[j]
    {
      assert r[j] == idx[j - 1];
      if i > 0 {
        assert r[i] == idx[i - 1];
      }
    }
  }

  /** The selected positions are in range and strictly increasing. */
  lemma {:induction false} SelectedIncreasing(flags: seq<bool>)
    ensures IncreasingBelow(Selected(flags), |flags|)
    decreases flags
  {
    if flags != [] {
      var tail := Selected(flags[1..]);
      SelectedIncreasing(flags[1..]);
      ShiftIncreasing(tail, |flags| - 1);
      if flags[0] {
        LeadZero(Shift(tail), |flags|);
      }
    }
  }

  /** A position is selected exactly when it holds `true`. */
  lemma {:induction false} SelectedExactly(flags: seq<bool>)
    ensures forall k :: 0 <= k < |flags| ==> (k in Selected(flags) <==> flags[k])
    decreases flags
  {
    if flags != [] {
      var rest := flags[1..];
      var tail := Selected(rest);
      SelectedExactly(rest);
      SelectedIncreasing(rest);
      ShiftIncreasing(tail, |rest|);
      var lead := if flags[0] then [0] else [];
      assert Selected(flags) == lead + Shift(tail);
      forall k | 0 <= k < |flags|
        ensures k in lead + Shift(tail) <==> flags[k]
      {
        ShiftMembers(tail, k);
        if k > 0 {
          assert flags[k] == rest[k - 1];
        }
      }
    }
  }

  /** One step of the loop: the first distribution's entry, if kept, then the rest. */
  lemma CollectStep(dists: seq<Distribution>, find: Json -> seq<string>)
    requires dists != []
    ensures Collect(dists, find)
         == (if find(dists[0].path) != [] then [EntryFor(dists[0], find)] else []) + Collect(dists[1..], find)
  {
  }

  /** Entry `i` of the loop's result is the entry of the `i`-th kept distribution. */
  lemma {:induction false} CollectFollowsSelected(dists: seq<Distribution>, find: Json -> seq<string>)
    ensures |Collect(dists, find)| == |Selected(Kept(dists, find))|
    ensures forall i :: 0 <= i < |Collect(dists, find)| ==>
      var k := Selected(Kept(dists, find))[i];
      0 <= k < |dists| && Collect(dists, find)[i] == EntryFor(dists[k], find)
    decreases dists
  {
    if dists != [] {
      var flags, rest := Kept(dists, find), dists[1..];
      assert flags[1..] == Kept(rest, find);
      CollectFollowsSelected(rest, find);
      CollectStep(dists, find);
      var lead := if flags[0] then [0] else [];
      var head := if flags[0] then [EntryFor(dists[0], find)] else [];
      assert Selected(flags) == lead + Shift(Selected(Kept(rest, find)));
      FollowsStep(dists, find, lead, head, Selected(Kept(rest, find)), Collect(rest, find));
    }
  }

  /** The inductive step: pairing the first distribution's entry with index 0,
      and the rest's entries with their indices moved up by one. */
  lemma FollowsStep(dists: seq<Distribution>, find: Json -> seq<string>,
                    lead: seq<int>, head: seq<ScanEntry>, tail: seq<int>, ct: seq<ScanEntry>)
    requires dists != []
    requires (lead == [] && head == []) || (lead == [0] && head == [EntryFor(dists[0], find)])
    requires |ct| == |tail|
    requires forall i :: 0 <= i < |tail| ==>
      0 <= tail[i] < |dists| - 1 && ct[i] == EntryFor(dists[1..][tail[i]], find)
    ensures |head + ct| == |lead + Shift(tail)|
    ensures forall i :: 0 <= i < |head + ct| ==>
      var k := (lead + Shift(tail))[i];
      0 <= k < |dists| && (head + ct)[i] == EntryFor(dists[k], find)
  {
    forall i | 0 <= i < |head + ct|
      ensures 0 <= (lead + Shift(tail))[i] < |dists|
      ensures (head + ct)[i] == EntryFor(dists[(lead + Shift(tail))[i]], find)
    {
      FollowsAt(dists, find, lead, head, tail, ct, i);
    }
  }

  /** `FollowsStep` at one position. */
  lemma FollowsAt(dists: seq<Distribution>, find: Json -> seq<string>,
                  lead: seq<int>, head: seq<ScanEntry>, tail: seq<int>, ct: seq<ScanEntry>, i: int)
    requires dists != []
    requires (lead == [] && head == []) || (lead == [0] && head == [EntryFor(dists[0], find)])
    requires |ct| == |tail|
    requires forall i :: 0 <= i < |tail| ==>
      0 <= tail[i] < |dists| - 1 && ct[i] == EntryFor(dists[1..][tail[i]], find)
    requires 0 <= i < |head + ct|
    ensures 0 <= (lead + Shift(tail))[i] < |dists|
    ensures (head + ct)[i] == EntryFor(dists[(lead + Shift(tail))[i]], find)
  {
    if i >= |lead| {
      var t := i - |lead|;
      assert (lead + Shift(tail))[i] == Shift(tail)[t] == tail[t] + 1;
      assert (head + ct)[i] == ct[t];
    }
  }

  /** The loop keeps exactly the distributions whose search found something,
      in their listing order: entry `i` is the entry of distribution `idx[i]`,
      the indices increase, and an index is selected exactly when that
      distribution's search is non-empty. */
  lemma CollectSelectsInOrder(dists: seq<Distribution>, find: Json -> seq<string>)
    returns (idx: seq<int>)
    ensures |idx| == |Collect(dists, find)|
    ensures forall i :: 0 <= i < |idx| ==>
      0 <= idx[i] < |dists| && Collect(dists, find)[i] == EntryFor(dists[idx[i]], find)
    ensures forall i, j :: 0 <= i < j < |idx| ==> idx[i] < idx[j]
    ensures forall k :: 0 <= k < |dists| ==> (k in idx <==> find(dists[k].path) != [])
  {
    var flags := Kept(dists, find);
    idx := Selected(flags);
    SelectedIncreasing(flags);
    SelectedExactly(flags);
    CollectFollowsSelected(dists, find);
  }

  /** The locator for a given home directory and filesystem. */
  function Locate(home: Option<string>, fs: FileSystem): Json -> seq<string> {
    p => FindVhdxFiles(p, home, fs)
  }

  /** `scan_distributions`: an exception from the lister propagates; otherwise
      the listed distributions with at least one disk image are reported. */
  function ScanDistributions(output: string, error: string, loads: string -> Decoded,
                             home: Option<string>, fs: FileSystem): (r: Outcome<seq<ScanEntry>>)
    ensures r.Raise? <==> ListDistributions(output, error, loads).Raise?
    ensures r.Done? ==> r.value == Collect(ListDistributions(output, error, loads).value, Locate(home, fs))
    ensures error != "" ==> r == Done([])
    ensures r.Done? ==> forall e :: e in r.value ==> e.vhdxFiles != []
  {
    match ListDistributions(output, error, loads)
    case Raise(e) => Raise(e)
    case Done(dists) => Done(Collect(dists, Locate(home, fs)))
  }

  /** A worked scan: one distribution `Ubuntu` at `C:\U` whose disk image is
      `C:\U\LocalState\ext4.vhdx`. The base path is walked first and reaches
      the image one level down; `LocalState` is then walked as a root of its
      own and reaches it again, so the one image is reported twice. */
  lemma UbuntuScenarioReportsImageTwice()
    ensures ScanDistributions(ScenarioOutput, "", ScenarioLoads, None, ScenarioFs())
         == Done([ScanEntry(JString("Ubuntu"), JString("C:\\U"), [ScenarioImage, ScenarioImage])])
  {
    ScenarioScan(ScenarioOutput, ScenarioLoads, ScenarioFs());
  }

  lemma ScenarioScan(output: string, loads: string -> Decoded, fs: FileSystem)
    requires output == ScenarioOutput && loads == ScenarioLoads && fs == ScenarioFs()
    ensures ScanDistributions(output, "", loads, None, fs)
         == Done([ScanEntry(JString("Ubuntu"), JString("C:\\U"), [ScenarioImage, ScenarioImage])])
  {
    ScenarioListing();
    var d := Distribution(JString("Ubuntu"), JString("C:\\U"));
    assert ListDistributions(output, "", loads) == Done([d]);
    var find := Locate(None, fs);
    ScenarioSearch("C:\\U", fs);
    assert find(d.path) == [ScenarioImage, ScenarioImage];
    CollectOne(d, find);
  }

  /** The loop over a single distribution whose search finds something. */
  lemma CollectOne(d: Distribution, find: Json -> seq<string>)
    requires find(d.path) != []
    ensures Collect([d], find) == [EntryFor(d, find)]
  {
    assert [d][1..] == [];
  }

  /** The query's output for the scenario, compact JSON text. */
  const ScenarioOutput := "[{\"DistributionName\":\"Ubuntu\"," + "\"BasePath\":\"C:\\\\U\"}]"

  const ScenarioImage := "C:\\U\\LocalState\\ext4.vhdx"

  /** The decoder's answer for the scenario's output. */
  function ScenarioLoads(output: string): Decoded {
    Parsed(JArray([JObject(map[NameKey := JString("Ubuntu"), PathKey := JString("C:\\U")])]))
  }

  /** `C:\U` holds `LocalState`, which holds the disk image; both paths exist. */
  function ScenarioFs(): FileSystem {
    map["C:\\U" := Dir([], [Entry(LocalState, false, Dir([Target], []))]),
        "C:\\U\\LocalState" := Dir([Target], [])]
  }

  // The steps of the worked scan, one lemma each: proved together they exceed
  // the verifier's resource budget.

  lemma ScenarioListing()
    ensures ListDistributions(ScenarioOutput, "", ScenarioLoads)
         == Done([Distribution(JString("Ubuntu"), JString("C:\\U"))])
  {
    assert ScenarioOutput[0] == '[';
    assert !Text.IsBlank(ScenarioOutput);
    var fields := map[NameKey := JString("Ubuntu"), PathKey := JString("C:\\U")];
    assert |NameKey| != |PathKey|;
    assert RecordOf(fields) == Distribution(JString("Ubuntu"), JString("C:\\U"));
    var items := [JObject(fields)];
    assert items[1..] == [];
    assert Records(items[1..]) == Done([]);
    assert [RecordOf(fields)] + [] == [RecordOf(fields)];
    assert Records(items) == Done([RecordOf(fields)]);
  }

  lemma ScenarioSearch(base: string, fs: FileSystem)
    requires base == "C:\\U" && fs == ScenarioFs()
    ensures FindVhdxFiles(JString(base), None, fs) == [ScenarioImage, ScenarioImage]
  {
    var roots := CandidateRoots(base, None);
    ScenarioRoots();
    ScenarioFaultFree();
    SearchRootsNoFault(fs, roots);
    FindVhdxFilesConcatenates(base, None, fs, roots);
    var w0, w1, w2 := WalkRoot(fs, roots[0]).found, WalkRoot(fs, roots[1]).found, WalkRoot(fs, roots[2]).found;
    assert FindVhdxFiles(JString(base), None, fs) == w0 + w1 + w2;
    assert w0 == [ScenarioImage] by { ScenarioWalkBase(); }
    assert w1 == [ScenarioImage] by { ScenarioWalkLocalState(); }
    assert w2 == [] by { ScenarioAppsMissing(); }
    TwoCopies(w0, w1, w2, ScenarioImage);
  }

  lemma TwoCopies(a: seq<string>, b: seq<string>, c: seq<string>, x: string)
    requires a == [x] && b == [x] && c == []
    ensures a + b + c == [x, x]
  {
  }

  lemma ScenarioAppsMissing()
    ensures WalkRoot(ScenarioFs(), WindowsAppsPattern).found == []
  {
    ScenarioAppsNotKey();
  }

  lemma ScenarioAppsNotKey()
    ensures WindowsAppsPattern !in ScenarioFs()
  {
    assert WindowsAppsPattern[0] == '~';
    assert WindowsAppsPattern != "C:\\U" by {
      assert "C:\\U"[0] == 'C';
    }
    assert WindowsAppsPattern != "C:\\U\\LocalState" by {
      assert "C:\\U\\LocalState"[0] == 'C';
    }
  }

  lemma ScenarioRoots()
    ensures CandidateRoots("C:\\U", None) == ["C:\\U", "C:\\U\\LocalState", WindowsAppsPattern]
  {
    ScenarioNormalise();
    ScenarioJoinLocalState();
  }

  lemma ScenarioNormalise()
    ensures Normalise("C:\\U") == "C:\\U"
  {
    assert "C:\\U"[..4][0] != ExtendedPrefix[0];
    assert "C:\\U"[1..] == ":\\U";
  }

  lemma ScenarioJoinLocalState()
    ensures Join("C:\\U", LocalState) == "C:\\U\\LocalState"
  {
  }

  lemma ScenarioJoinImage()
    ensures Join("C:\\U\\LocalState", Target) == ScenarioImage
  {
  }

  lemma ScenarioSepCounts()
    ensures SepCount("C:\\U") == 1 && SepCount("C:\\U\\LocalState") == 2
  {
    ScenarioBaseSeps();
    ScenarioLocalStateSeps("C:\\U", LocalState);
  }

  lemma ScenarioBaseSeps()
    ensures SepCount("C:\\U") == 1
  {
    var base := "C:\\U";
    assert base == "C:" + [Sep] + "U";
    assert SepCount("C:") == 0 && SepCount("U") == 0 && SepCount([Sep]) == 1;
    assert multiset(base) == multiset("C:") + multiset([Sep]) + multiset("U");
  }

  lemma ScenarioLocalStateSeps(base: string, name: string)
    requires base == "C:\\U" && name == LocalState
    ensures SepCount("C:\\U\\LocalState") == 2
  {
    ScenarioBaseSeps();
    assert Sep !in name;
    assert SepCount(name) == 0;
    ScenarioJoinLocalState();
    assert base[|base| - 1] == 'U';
    assert Join(base, name) == base + [Sep] + name;
    assert multiset(base + [Sep] + name) == multiset(base) + multiset([Sep]) + multiset(name);
  }

  lemma ScenarioFaultFree()
    ensures forall p :: p in ScenarioFs() ==> FaultFree(ScenarioFs()[p])
  {
    var inner := Dir([Target], []);
    assert FaultFree(inner);
    assert FaultFree(Dir([], [Entry(LocalState, false, inner)]));
  }

  lemma ScenarioMatch()
    ensures Matches("C:\\U\\LocalState", [Target]) == [ScenarioImage]
  {
    ScenarioJoinImage();
    assert [Target][1..] == [];
  }

  lemma ScenarioExists()
    ensures Exists(ScenarioFs(), "C:\\U") && Exists(ScenarioFs(), "C:\\U\\LocalState")
    ensures ScenarioFs()["C:\\U\\LocalState"] == Dir([Target], [])
    ensures ScenarioFs()["C:\\U"] == Dir([], [Entry(LocalState, false, Dir([Target], []))])
  {
  }

  lemma ScenarioWalkLocalState()
    ensures WalkRoot(ScenarioFs(), "C:\\U\\LocalState").found == [ScenarioImage]
  {
    ScenarioExists();
    ScenarioSepCounts();
    ScenarioMatch();
    assert WalkDir("C:\\U\\LocalState", Dir([Target], []), 2).found == [ScenarioImage];
  }

  lemma ScenarioWalkBase()
    ensures WalkRoot(ScenarioFs(), "C:\\U").found == [ScenarioImage]
  {
    ScenarioExists();
    ScenarioSepCounts();
    ScenarioWalkBaseDir("C:\\U", [Entry(LocalState, false, Dir([Target], []))]);
  }

  lemma ScenarioWalkBaseDir(path: string, es: seq<Entry>)
    requires path == "C:\\U" && es == [Entry(LocalState, false, Dir([Target], []))]
    ensures WalkDir(path, Dir([], es), 1).found == [ScenarioImage]
  {
    ScenarioSepCounts();
    assert Matches(path, []) == [];
    ScenarioWalkBaseEntries(path, es);
  }

  lemma ScenarioWalkBaseEntries(path: string, es: seq<Entry>)
    requires path == "C:\\U" && es == [Entry(LocalState, false, Dir([Target], []))]
    ensures WalkEntries(path, es, 1) == Walked([ScenarioImage], false)
  {
    ScenarioJoinLocalState();
    ScenarioWalkChild();
    SingleEntry(path, es[0], 1);
  }

  lemma ScenarioWalkChild()
    ensures WalkDir("C:\\U\\LocalState", Dir([Target], []), 1) == Walked([ScenarioImage], false)
  {
    ScenarioSepCounts();
    ScenarioMatch();
  }
}

=== FILE: text.dfy ===
/** The two string operations of Python's str that the manager relies on:
    the blank test `s.strip() == ""` and removal of every occurrence of a
    substring, `s.replace(old, "")`. */
module Text {

  /** Python's str.isspace for one character: the ASCII controls TAB..CR
      and FS..US, SPACE, NEL, NBSP and the Unicode space separators. */
  predicate IsSpace(c: char) {
    var n := c as int;
    || 0x09 <= n <= 0x0D
    || 0x1C <= n <= 0x20
    || n == 0x85 || n == 0xA0 || n == 0x1680
    || 0x2000 <= n <= 0x200A
    || n == 0x2028 || n == 0x2029 || n == 0x202F || n == 0x205F || n == 0x3000
  }

  /** `s.strip()` is the empty string exactly when every character is white space. */
  predicate IsBlank(s: string) {
    forall i :: 0 <= i < |s| ==> IsSpace(s[i])
  }

  /** `pat` occurs in `s` starting at index `i`. */
  predicate OccursAt(s: string, pat: string, i: int) {
    0 <= i && i + |pat| <= |s| && s[i..i + |pat|] == pat
  }

  /** `pat` occurs somewhere in `s`. */
  predicate Occurs(s: string, pat: string) {
    exists i :: 0 <= i <= |s| - |pat| && OccursAt(s, pat, i)
  }

  /** `s.replace(pat, "")`: scanning left to right, every occurrence of `pat`
      that does not overlap an earlier removed one is deleted, so the result
      is never longer than `s`. */
  function RemoveAll(s: string, pat: string): (r: string)
    requires pat != ""
    ensures |r| <= |s|
    decreases |s|
  {
    if |s| < |pat| then s
    else if s[..|pat|] == pat then RemoveAll(s[|pat|..], pat)
    else [s[0]] + RemoveAll(s[1..], pat)
  }

  /** A string in which `pat` does not occur comes back unchanged. */
  lemma {:induction false} RemoveAllClean(s: string, pat: string)
    requires pat != ""
    requires !Occurs(s, pat)
    ensures RemoveAll(s, pat) == s
    decreases |s|
  {
    if |s| >= |pat| {
      assert !OccursAt(s, pat, 0);
      assert s[..|pat|] != pat;
      forall i | OccursAt(s[1..], pat, i)
        ensures false
      {
        assert s[1..][i..i + |pat|] == s[i + 1..i + 1 + |pat|];
        assert OccursAt(s, pat, i + 1);
      }
      RemoveAllClean(s[1..], pat);
    }
  }

  /** Something is removed exactly when `pat` occurs in `s`. */
  lemma {:induction false} RemoveAllShrinks(s: string, pat: string)
    requires pat != ""
    ensures |RemoveAll(s, pat)| < |s| <==> Occurs(s, pat)
    decreases |s|
  {
    if Occurs(s, pat) {
      var i :| 0 <= i <= |s| - |pat| && OccursAt(s, pat, i);
      if s[..|pat|] != pat {
        assert i > 0;
        assert s[1..][i - 1..i - 1 + |pat|] == s[i..i + |pat|];
        assert OccursAt(s[1..], pat, i - 1);
        RemoveAllShrinks(s[1..], pat);
      }
    } else {
      RemoveAllClean(s, pat);
    }
  }

  /** A leading copy of `pat` is removed, and the scan resumes right after it. */
  lemma RemoveAllLeading(pat: string, rest: string)
    requires pat != ""
    ensures RemoveAll(pat + rest, pat) == RemoveAll(rest, pat)
  {
    assert (pat + rest)[..|pat|] == pat;
    assert (pat + rest)[|pat|..] == rest;
  }
}

=== FILE: walk.dfy ===
/** A top-down `os.walk` over an abstract directory tree, with the locator's
    depth pruning folded in: a listed directory whose separator count exceeds
    the search root's by `MaxDepth` or more has its files examined, but its
    subdirectories are not entered. */
module Walk {
  import opened Paths

  /** What a path resolves to. `Unlistable` is a file, or a directory whose
      listing fails: `os.walk` skips it silently. `Fault` stands for any
      exception that escapes the walk when it reaches that directory. */
  datatype Node =
    | Dir(files: seq<string>, subdirs: seq<Entry>)
    | Unlistable
    | Fault

  /** A subdirectory as listed in its parent. `os.walk` lists a symbolic link
      to a directory among the subdirectories but does not enter it. */
  datatype Entry = Entry(name: string, link: bool, node: Node)

  /** The file the locator looks for. */
  const Target := "ext4.vhdx"

  /** Separator-count difference at which descent stops. */
  const MaxDepth := 3

  /** What a walk gathered, and whether it ended with an escaping exception. */
  datatype Walked = Walked(found: seq<string>, faulted: bool)

  /** The matches in one listed directory: `join(dir, f)` for every listed
      file name `f` equal to the target, in listing order. */
  function Matches(dir: string, files: seq<string>): (r: seq<string>)
    ensures |r| == multiset(files)[Target]
    ensures forall m :: m in r ==> m == Join(dir, Target)
  {
    if files == [] then []
    else
      var rest := Matches(dir, files[1..]);
      assert multiset(files) == multiset([files[0]]) + multiset(files[1..]) by {
        assert files == [files[0]] + files[1..];
      }
      if files[0] == Target then [Join(dir, Target)] + rest else rest
  }

  /** Walk the directory at `path`; `base` is the search root's separator count. */
  function WalkDir(path: string, node: Node, base: int): Walked
    decreases node
  {
    match node
    case Unlistable => Walked([], false)
    case Fault => Walked([], true)
    case Dir(files, subdirs) =>
      var here := Matches(path, files);
      if SepCount(path) - base >= MaxDepth then Walked(here, false)
      else
        var below := WalkEntries(path, subdirs, base);
        Walked(here + below.found, below.faulted)
  }

  /** Walk the listed subdirectories of `parent` in listing order, stopping at
      the first escaping exception. */
  function WalkEntries(parent: string, entries: seq<Entry>, base: int): Walked
    decreases entries
  {
    if entries == [] then Walked([], false)
    else
      var e := entries[0];
      var first := if e.link then Walked([], false) else WalkDir(Join(parent, e.name), e.node, base);
      if first.faulted then first
      else
        var rest := WalkEntries(parent, entries[1..], base);
        Walked(first.found + rest.found, rest.faulted)
  }

  /** The walk of a single non-link subdirectory is that subdirectory's walk. */
  lemma SingleEntry(parent: string, e: Entry, base: int)
    requires !e.link
    ensures WalkEntries(parent, [e], base) == WalkDir(Join(parent, e.name), e.node, base)
  {
    assert [e][1..] == [];
    var w := WalkDir(Join(parent, e.name), e.node, base);
    assert w.found + [] == w.found;
  }

  /** The walk of `node` at `path` lists directory `q`, whose node is `qn`:
      `q` is `path` itself, or `path` is shallow enough to be descended and
      `q` is listed below one of its non-link subdirectories. Where the walk
      faults it stops early, so this is what it lists when nothing faults. */
  ghost predicate Listed(path: string, node: Node, base: int, q: string, qn: Node)
    decreases node
  {
    && node.Dir?
    && ((q == path && qn == node)
        || (&& SepCount(path) - base < MaxDepth
            && exists i :: 0 <= i < |node.subdirs| && ListedBelow(path, node.subdirs[i], base, q, qn)))
  }

  /** The walk enters entry `e` of directory `parent` and lists `q` there. */
  ghost predicate ListedBelow(parent: string, e: Entry, base: int, q: string, qn: Node)
    decreases e
  {
    !e.link && Listed(Join(parent, e.name), e.node, base, q, qn)
  }

  /** `m` is the target's path in some directory the walk lists. */
  ghost predicate Reported(path: string, node: Node, base: int, m: string) {
    exists q, qn :: Listed(path, node, base, q, qn) && qn.Dir? && Target in qn.files && m == Join(q, Target)
  }

  /** No non-link directory at any depth raises, below the pruning boundary
      included: a condition on the tree alone, sufficient for a walk from any
      root to end without an escaping exception (`WalkDirNoFault`). */
  predicate FaultFree(node: Node)
    decreases node
  {
    match node
    case Fault => false
    case Unlistable => true
    case Dir(_, subdirs) => forall i :: 0 <= i < |subdirs| ==> subdirs[i].link || FaultFree(subdirs[i].node)
  }

  /** No directory the walk from `path` enters raises: a `Fault` may sit only
      behind a link or below a directory at the pruning boundary. */
  predicate EnteredFaultFree(path: string, node: Node, base: int)
    decreases node
  {
    match node
    case Fault => false
    case Unlistable => true
    case Dir(_, subdirs) =>
      || SepCount(path) - base >= MaxDepth
      || forall i :: 0 <= i < |subdirs| ==>
           subdirs[i].link || EnteredFaultFree(Join(path, subdirs[i].name), subdirs[i].node, base)
  }

  /** Every subdirectory name is free of `os.sep`, as names the OS lists are. */
  predicate PlainNames(node: Node)
    decreases node
  {
    match node
    case Dir(_, subdirs) => forall i :: 0 <= i < |subdirs| ==> SepCount(subdirs[i].name) == 0 && PlainNames(subdirs[i].node)
    case _ => true
  }

  /** Every path the walk reports is the target inside a directory it lists. */
  lemma {:induction false} WalkDirSound(path: string, node: Node, base: int)
    ensures forall m :: m in WalkDir(path, node, base).found ==> Reported(path, node, base, m)
    decreases node
  {
    if node.Dir? {
      var here := Matches(path, node.files);
      var w := WalkDir(path, node, base);
      if SepCount(path) - base < MaxDepth {
        WalkEntriesSound(path, node.subdirs, base);
      }
      forall m | m in w.found
        ensures Reported(path, node, base, m)
      {
        if m in here {
          ReportedHere(path, node, base);
        } else {
          assert SepCount(path) - base < MaxDepth;
          var below := WalkEntries(path, node.subdirs, base);
          assert w.found == here + below.found;
          ReportedBelow(path, node, base, m);
        }
      }
    }
  }

  /** A match in the listed directory itself is reported. */
  lemma ReportedHere(path: string, node: Node, base: int)
    requires node.Dir? && Target in node.files
    ensures Reported(path, node, base, Join(path, Target))
  {
    assert Listed(path, node, base, path, node);
  }

  /** A match reported under a non-link subdirectory of a shallow directory is reported by the directory. */
  lemma ReportedBelow(path: string, node: Node, base: int, m: string)
    requires node.Dir? && SepCount(path) - base < MaxDepth
    requires exists i :: (0 <= i < |node.subdirs| && !node.subdirs[i].link
                          && Reported(Join(path, node.subdirs[i].name), node.subdirs[i].node, base, m))
    ensures Reported(path, node, base, m)
  {
    var i :| 0 <= i < |node.subdirs| && !node.subdirs[i].link
             && Reported(Join(path, node.subdirs[i].name), node.subdirs[i].node, base, m);
    var q, qn :| Listed(Join(path, node.subdirs[i].name), node.subdirs[i].node, base, q, qn)
                 && qn.Dir? && Target in qn.files && m == Join(q, Target);
    assert ListedBelow(path, node.subdirs[i], base, q, qn);
    assert Listed(path, node, base, q, qn);
  }

  /** Every path reported under the entries is reported under one non-link entry. */
  lemma {:induction false} WalkEntriesSound(parent: string, entries: seq<Entry>, base: int)
    ensures forall m :: m in WalkEntries(parent, entries, base).found ==>
      exists i :: 0 <= i < |entries| && !entries[i].link && Reported(Join(parent, entries[i].name), entries[i].node, base, m)
    decreases entries
  {
    if entries != [] {
      var e := entries[0];
      var first := if e.link then Walked([], false) else WalkDir(Join(parent, e.name), e.node, base);
      var rest := entries[1..];
      var w := WalkEntries(parent, entries, base);
      if !e.link {
        WalkDirSound(Join(parent, e.name), e.node, base);
      }
      WalkEntriesSound(parent, rest, base);
      assert w.found == first.found || w.found == first.found + WalkEntries(parent, rest, base).found;
      forall m | m in w.found
        ensures exists i :: 0 <= i < |entries| && !entries[i].link && Reported(Join(parent, entries[i].name), entries[i].node, base, m)
      {
        if m in first.found {
          assert !entries[0].link && Reported(Join(parent, entries[0].name), entries[0].node, base, m);
        } else {
          assert m in WalkEntries(parent, rest, base).found;
          var j :| 0 <= j < |rest| && !rest[j].link && Reported(Join(parent, rest[j].name), rest[j].node, base, m);
          assert entries[j + 1] == rest[j];
        }
      }
    }
  }

  /** The walk ends with an escaping exception exactly when a directory it
      enters raises; a fault-free tree is one on which it never does. */
  lemma {:induction false} WalkDirNoFault(path: string, node: Node, base: int)
    ensures !WalkDir(path, node, base).faulted <==> EnteredFaultFree(path, node, base)
    ensures FaultFree(node) ==> !WalkDir(path, node, base).faulted
    decreases node
  {
    if node.Dir? && SepCount(path) - base < MaxDepth {
      WalkEntriesNoFault(path, node.subdirs, base);
    }
    if FaultFree(node) {
      FaultFreeEntered(path, node, base);
    }
  }

  /** The walk over subdirectories ends with an escaping exception exactly when
      one of the non-link entries' walks does. */
  lemma {:induction false} WalkEntriesNoFault(parent: string, entries: seq<Entry>, base: int)
    ensures !WalkEntries(parent, entries, base).faulted <==>
      forall i :: 0 <= i < |entries| ==>
        entries[i].link || EnteredFaultFree(Join(parent, entries[i].name), entries[i].node, base)
    ensures (forall i :: 0 <= i < |entries| ==> entries[i].link || FaultFree(entries[i].node)) ==>
      !WalkEntries(parent, entries, base).faulted
    decreases entries
  {
    if entries != [] {
      var e := entries[0];
      var rest := entries[1..];
      if !e.link {
        WalkDirNoFault(Join(parent, e.name), e.node, base);
      }
      WalkEntriesNoFault(parent, rest, base);
      assert forall i :: 0 <= i < |rest| ==> rest[i] == entries[i + 1];
      if forall i :: 0 <= i < |entries| ==> entries[i].link || FaultFree(entries[i].node) {
        forall i | 0 <= i < |entries| && !entries[i].link
          ensures EnteredFaultFree(Join(parent, entries[i].name), entries[i].node, base)
        {
          FaultFreeEntered(Join(parent, entries[i].name), entries[i].node, base);
        }
      }
    }
  }

  /** A fault-free tree has no faulting directory where the walk enters. */
  lemma {:induction false} FaultFreeEntered(path: string, node: Node, base: int)
    requires FaultFree(node)
    ensures EnteredFaultFree(path, node, base)
    decreases node
  {
    if node.Dir? {
      forall i | 0 <= i < |node.subdirs| && !node.subdirs[i].link
        ensures EnteredFaultFree(Join(path, node.subdirs[i].name), node.subdirs[i].node, base)
      {
        FaultFreeEntered(Join(path, node.subdirs[i].name), node.subdirs[i].node, base);
      }
    }
  }

  /** When no exception escapes, the walk reports the target in every directory it lists. */
  lemma {:induction false} WalkDirComplete(path: string, node: Node, base: int, q: string, qn: Node)
    requires !WalkDir(path, node, base).faulted
    requires Listed(path, node, base, q, qn) && qn.Dir? && Target in qn.files
    ensures Join(q, Target) in WalkDir(path, node, base).found
    decreases node
  {
    var here := Matches(path, node.files);
    if q == path && qn == node {
      assert Target in multiset(node.files);
      assert |here| > 0;
      assert here[0] in here;
    } else {
      var i :| 0 <= i < |node.subdirs| && ListedBelow(path, node.subdirs[i], base, q, qn);
      WalkEntriesComplete(path, node.subdirs, base, i, q, qn);
    }
  }

  /** When no exception escapes the walk over the entries, it reports the
      target in every directory listed under entry `i`. */
  lemma {:induction false} WalkEntriesComplete(parent: string, entries: seq<Entry>, base: int, i: int, q: string, qn: Node)
    requires !WalkEntries(parent, entries, base).faulted
    requires 0 <= i < |entries| && ListedBelow(parent, entries[i], base, q, qn) && qn.Dir? && Target in qn.files
    ensures Join(q, Target) in WalkEntries(parent, entries, base).found
    decreases entries
  {
    var e := entries[0];
    var first := if e.link then Walked([], false) else WalkDir(Join(parent, e.name), e.node, base);
    assert !first.faulted;
    if i == 0 {
      WalkDirComplete(Join(parent, e.name), e.node, base, q, qn);
    } else {
      WalkEntriesComplete(parent, entries[1..], base, i - 1, q, qn);
    }
  }

  /** With plain names, a directory listed from a search root lies at most
      `MaxDepth` separators deeper than the root. */
  lemma {:induction false} ListedDepth(path: string, node: Node, base: int, q: string, qn: Node)
    requires PlainNames(node)
    requires SepCount(path) - base <= MaxDepth
    requires Listed(path, node, base, q, qn)
    ensures SepCount(path) <= SepCount(q)
    ensures SepCount(q) - base <= MaxDepth
    decreases node
  {
    if !(q == path && qn == node) {
      var i :| 0 <= i < |node.subdirs| && ListedBelow(path, node.subdirs[i], base, q, qn);
      var e := node.subdirs[i];
      JoinSepCount(path, e.name);
      ListedDepth(Join(path, e.name), e.node, base, q, qn);
    }
  }

  /** The same tree with every faulting directory made silently unlistable:
      the walk a run without escaping exceptions would make. */
  function Heal(node: Node): (h: Node)
    ensures FaultFree(h)
    decreases node
  {
    match node
    case Fault => Unlistable
    case Unlistable => Unlistable
    case Dir(files, subdirs) => Dir(files, HealEntries(subdirs))
  }

  /** `Heal` applied to every entry's node; names and link flags are kept. */
  function HealEntries(entries: seq<Entry>): (hs: seq<Entry>)
    ensures |hs| == |entries|
    ensures forall i :: 0 <= i < |entries| ==>
      hs[i].name == entries[i].name && hs[i].link == entries[i].link && FaultFree(hs[i].node)
    decreases entries
  {
    if entries == [] then []
    else [Entry(entries[0].name, entries[0].link, Heal(entries[0].node))] + HealEntries(entries[1..])
  }

  /** An escaping exception only cuts the walk short: what it gathered is a
      prefix of what the walk gathers when no directory raises, and when
      nothing escaped the two walks agree. */
  lemma {:induction false} WalkDirPartial(path: string, node: Node, base: int)
    ensures WalkDir(path, node, base).found <= WalkDir(path, Heal(node), base).found
    ensures !WalkDir(path, node, base).faulted ==> WalkDir(path, node, base) == WalkDir(path, Heal(node), base)
    decreases node
  {
    if node.Dir? && SepCount(path) - base < MaxDepth {
      WalkEntriesPartial(path, node.subdirs, base);
    }
  }

  /** `WalkDirPartial` for the walk over a directory's entries. */
  lemma {:induction false} WalkEntriesPartial(parent: string, entries: seq<Entry>, base: int)
    ensures WalkEntries(parent, entries, base).found <= WalkEntries(parent, HealEntries(entries), base).found
    ensures !WalkEntries(parent, entries, base).faulted ==> WalkEntries(parent, entries, base) == WalkEntries(parent, HealEntries(entries), base)
    decreases entries
  {
    if entries != [] {
      var e := entries[0];
      var hs := HealEntries(entries);
      assert hs[0] == Entry(e.name, e.link, Heal(e.node));
      assert hs[1..] == HealEntries(entries[1..]);
      var child := Join(parent, e.name);
      if !e.link {
        WalkDirPartial(child, e.node, base);
        WalkDirNoFault(child, Heal(e.node), base);
      }
      WalkEntriesPartial(parent, entries[1..], base);
      var first := if e.link then Walked([], false) else WalkDir(child, e.node, base);
      var first' := if e.link then Walked([], false) else WalkDir(child, Heal(e.node), base);
      assert !first'.faulted;
      var w' := WalkEntries(parent, hs, base);
      assert w'.found == first'.found + WalkEntries(parent, hs[1..], base).found;
      if first.faulted {
        assert first.found <= first'.found;
      }
    }
  }

  /** `m` is the target in a directory listed at most `MaxDepth` separators
      below the search root `root`. */
  ghost predicate ShallowReport(root: string, node: Node, m: string) {
    exists q, qn ::
      && Listed(root, node, SepCount(root), q, qn)
      && qn.Dir? && Target in qn.files && m == Join(q, Target)
      && SepCount(q) - SepCount(root) <= MaxDepth
  }

  /** With plain names, every match the walk of a search root reports comes
      from a directory at most `MaxDepth` separators below the root. */
  lemma ReportedIsShallow(root: string, node: Node, m: string)
    requires PlainNames(node)
    requires Reported(root, node, SepCount(root), m)
    ensures ShallowReport(root, node, m)
  {
    var q, qn :| Listed(root, node, SepCount(root), q, qn) && qn.Dir? && Target in qn.files && m == Join(q, Target);
    ListedDepth(root, node, SepCount(root), q, qn);
  }

  /** The example tree: `ext4.vhdx` at separator depth 2 under its root, at
      depth 3 (the pruning boundary) and again at depth 4. */
  function ExampleTree(): Node {
    Dir([], [Entry("a", false, ExampleA())])
  }

  function ExampleA(): Node {
    Dir([], [Entry("b", false, ExampleB())])
  }

  function ExampleB(): Node {
    Dir([Target], [Entry("c", false, ExampleC())])
  }

  /** The boundary directory `R\a\b\c`: its files are examined, its
      subdirectory `d` is not entered. */
  function ExampleC(): Node {
    Dir([Target], [Entry("d", false, Dir([Target], []))])
  }

  /** A search root holding the target two, three and four levels down: the
      walk reports the first two copies, the boundary directory's included,
      and never reaches the third. */
  lemma DepthBoundaryExample()
    ensures WalkDir("R", ExampleTree(), 0) == Walked(["R\\a\\b\\ext4.vhdx", "R\\a\\b\\c\\ext4.vhdx"], false)
  {
    ExamplePaths();
    ExampleLevelOne();
    SingleEntry("R", Entry("a", false, ExampleA()), 0);
  }

  /** The paths of the example's directories and their separator counts. */
  lemma ExamplePaths()
    ensures Join("R", "a") == "R\\a" && Join("R\\a", "b") == "R\\a\\b" && Join("R\\a\\b", "c") == "R\\a\\b\\c"
    ensures Join("R\\a\\b", Target) == "R\\a\\b\\ext4.vhdx"
    ensures Join("R\\a\\b\\c", Target) == "R\\a\\b\\c\\ext4.vhdx"
    ensures SepCount("R") == 0 && SepCount("R\\a") == 1 && SepCount("R\\a\\b") == 2 && SepCount("R\\a\\b\\c") == 3
  {
    ExampleSepCounts();
    ExampleJoinA();
    ExampleJoinB();
    ExampleJoinC();
    ExampleJoinTarget();
    ExampleJoinDeepTarget();
  }

  // Each fact below is its own lemma: proved together they exceed the
  // verifier's resource budget.

  lemma ExampleJoinA()
    ensures Join("R", "a") == "R\\a"
  {
  }

  lemma ExampleJoinB()
    ensures Join("R\\a", "b") == "R\\a\\b"
  {
  }

  lemma ExampleJoinC()
    ensures Join("R\\a\\b", "c") == "R\\a\\b\\c"
  {
  }

  lemma ExampleJoinTarget()
    ensures Join("R\\a\\b", Target) == "R\\a\\b\\ext4.vhdx"
  {
  }

  lemma ExampleJoinDeepTarget()
    ensures Join("R\\a\\b\\c", Target) == "R\\a\\b\\c\\ext4.vhdx"
  {
  }

  lemma ExampleSepCounts()
    ensures SepCount("R") == 0 && SepCount("R\\a") == 1 && SepCount("R\\a\\b") == 2 && SepCount("R\\a\\b\\c") == 3
  {
  }

  lemma ExampleLevelOne()
    ensures WalkDir("R\\a", ExampleA(), 0) == Walked(["R\\a\\b\\ext4.vhdx", "R\\a\\b\\c\\ext4.vhdx"], false)
  {
    ExamplePaths();
    ExampleLevelTwo();
    SingleEntry("R\\a", Entry("b", false, ExampleB()), 0);
  }

  lemma ExampleLevelTwo()
    ensures WalkDir("R\\a\\b", ExampleB(), 0) == Walked(["R\\a\\b\\ext4.vhdx", "R\\a\\b\\c\\ext4.vhdx"], false)
  {
    ExamplePaths();
    ExampleLevelThree();
    ExampleMatch();
    SingleEntry("R\\a\\b", Entry("c", false, ExampleC()), 0);
  }

  lemma ExampleLevelThree()
    ensures WalkDir("R\\a\\b\\c", ExampleC(), 0) == Walked(["R\\a\\b\\c\\ext4.vhdx"], false)
  {
    ExamplePaths();
    assert [Target][1..] == [];
    assert Matches("R\\a\\b\\c", [Target]) == ["R\\a\\b\\c\\ext4.vhdx"];
  }

  /** The boundary directory with a raising subdirectory `d`. */
  function ExampleFaultBelow(): Node {
    Dir([Target], [Entry("d", false, Fault)])
  }

  /** A fault below the pruning boundary: the tree is not fault-free, yet the
      walk never enters `d`, ends without an exception and reports the
      boundary directory's copy. */
  lemma PrunedFaultExample()
    ensures !FaultFree(ExampleFaultBelow())
    ensures EnteredFaultFree("R\\a\\b\\c", ExampleFaultBelow(), 0)
    ensures WalkDir("R\\a\\b\\c", ExampleFaultBelow(), 0) == Walked(["R\\a\\b\\c\\ext4.vhdx"], false)
  {
    ExamplePaths();
    assert ExampleFaultBelow().subdirs[0].node == Fault;
    assert [Target][1..] == [];
    assert Matches("R\\a\\b\\c", [Target]) == ["R\\a\\b\\c\\ext4.vhdx"];
  }

  lemma ExampleMatch()
    ensures Matches("R\\a\\b", [Target]) == ["R\\a\\b\\ext4.vhdx"]
  {
    ExamplePaths();
    assert [Target][1..] == [];
  }
}

=== FILE: wrappers.dfy ===
/** Values shared by the other modules. */
module Wrappers {

  /** An optional value: for instance the user's home directory, which may be unknown. */
  datatype Option<T> = None | Some(value: T)
}
